=== FILE: README.md ===
# Batching dispatcher core, modelled in Dafny

This project models the sequential logic of a small Go utility repository:

- `queue.dfy`: the FIFO slice queue of `ds/queue.go`. Module `Queue` holds
  the package-level `Push`, `Pop`, `Take` and `Len` as pure functions on a
  `seq`. Module `Concurrent` holds `ConcurrentQueue`, a value that wraps the
  slice and passes each call on to those functions. The read-write lock only
  serialises calls, so it is not modelled.
- `interval.dfy`: the interval worker of `worker/interval.go` as a state
  machine. The state is the configuration, the queue, a flag `armed` (the
  timer handle is non-nil) and a log `delivered` of the items handed to the
  per-item callback. `Push` and `Run` are the two transitions. `Exec` runs a
  trace of pushes and timer firings. A firing may occur while the timer handle
  is nil. `Run` is exported (`worker/interval.go:100`), so that step also
  stands for a direct call, and the trace lemmas cover direct calls too.
  Three Go runtime panics of this code are results, not preconditions:
  - `make(chan T, n)` with a negative worker count;
  - `make([]T, n)` inside `Take` with a negative take count;
  - `Reset` through a nil timer handle.

  The nil-pointer panics (a nil `opts`, a nil callback) are not modelled;
  see "Left out".
- `diff.dfy`: `Diff` of `slice/diff.go`. The function splits two slices into
  `s1Only`, `s2Only` and `common`. An independent rule, `FirstMatch`, fixes
  where each element of `s2` goes: it goes to `common` exactly when it occurs
  in `s1` and not earlier in `s2`.
- `mux.dfy`: the middleware ordering of `http/mux.go`. Middleware are opaque
  tags, and a handler is `Base` wrapped in tags. `Compose` is the wrapping
  loop of `ServeHTTP`.

Where the code and its description disagree, the model follows the code:

- `Run` on an empty queue returns at once. It does not clear the timer
  handle, so `armed` is left as it was.
- `Run` calls the callback itself for each item taken. Nothing is ever sent
  to the worker pool's channel, so the pool never receives work.
- Only a zero option is replaced by its default, and a negative value is
  kept. A negative `TakeCount` or `WorkerCount` leads to the panics above.
  A negative `Interval` only reaches `time.AfterFunc` and `Reset`
  (`worker/interval.go:95`, `:113`). Those fire at once for a duration
  <= 0 and do not panic.
- `IsEmpty` is called by the worker (`worker/interval.go:101`, `:110`) but
  is not defined in `ds/queue.go`. It is modelled as `Len() == 0`.

## Model

| member | source | states |
|---|---|---|
| Queue.Push | ds/queue.go:44-46 | the queue grows by exactly one; the earlier items are unchanged and the new item is last |
| Queue.Pop | ds/queue.go:48-55 | on an empty queue the result is the zero value and the queue is unchanged; otherwise the head followed by the new queue is the old queue |
| Queue.PopN | ds/queue.go:61-64 | popping k times yields k items, and these items followed by what is left are the original queue |
| Queue.Take | ds/queue.go:57-66 | with n >= 0, the items taken are the first min(n, len) items in queue order and the rest is the remaining queue; Take(0) changes nothing; n >= len empties the queue |
| Queue.TakeLoop | ds/queue.go:57-66 | the slot-by-slot pop loop returns min(n, len) items, the items returned plus the rest give back the old queue, and the loop agrees with Take |
| Queue.PushAllAppends | ds/queue.go:44-46 | pushing a batch one item at a time appends the batch to the tail in order |
| Queue.FifoOrder | ds/queue.go:44-66 | pushing p1..pk onto an empty queue and then taking k items yields p1..pk and leaves the queue empty |
| Queue.LenAccounting | ds/queue.go:44-70 | Len rises by one on a push and falls by exactly the number of items a take returns |
| Queue.PopAfterPush | ds/queue.go:44-55 | on a non-empty queue a pop after a push returns the old head, and the pushed item stays at the tail |
| Queue.TakeTwice | ds/queue.go:57-66 | a second take of k returns the next min(k, len - returned) items, so two takes return the first min(2k, len) items in order |
| Concurrent.PushThenTakeAll | ds/queue.go:16-42 | through the wrapper, pushing ps onto a new queue gives Len = \|ps\|; taking \|ps\| then returns ps and leaves the queue empty |
| Concurrent.PushEachDelegates | ds/queue.go:20-24 | pushing through the wrapper is pushing on the underlying slice |
| IntervalWorker.WithDefaults | worker/interval.go:47-55 | a zero Interval, TakeCount or WorkerCount becomes 5s, 5 or 1; every non-zero value, negative ones included, is kept |
| IntervalWorker.WithDefaultsIdempotent | worker/interval.go:47-55 | after defaulting no option is zero, so defaulting again changes nothing |
| IntervalWorker.New | worker/interval.go:46-70 | with unbounded integers, construction panics when the defaulted worker count is negative and for no other count; otherwise the worker has the defaulted options, an empty queue, no timer and no deliveries |
| IntervalWorker.Push | worker/interval.go:92-97 | the item is appended at the queue tail; the worker is armed afterwards whether it was idle or armed before; nothing is delivered |
| IntervalWorker.Run | worker/interval.go:100-115 | on an empty queue nothing changes, `armed` included. Otherwise, if the take count is non-negative, the first min(TakeCount, len) items are delivered in order and removed. The worker is then armed iff items remain. It panics with NegativeSliceLength when the take count is negative and the queue is non-empty, and with NilTimerReset when items remain but the timer handle is nil. At most TakeCount items are delivered |
| IntervalWorker.PushKeepsInvariant | worker/interval.go:92-97 | after a push the queue is non-empty and the worker is armed |
| IntervalWorker.RunKeepsInvariant | worker/interval.go:100-115 | if a non-empty queue implies armed before a run, it does so after the run |
| IntervalWorker.RunNeverResetsNilTimer | worker/interval.go:105-114 | while a non-empty queue implies armed, Run panics only for a negative take count on a non-empty queue, never on the timer reset |
| IntervalWorker.ExecKeepsInvariant | worker/interval.go:92-115 | every state reached by any trace of pushes and firings keeps the invariant "non-empty queue implies armed" |
| IntervalWorker.NeverNilTimerReset | worker/interval.go:92-115 | no trace of pushes and firings from a state with the invariant ever resets a nil timer |
| IntervalWorker.NewSatisfiesInvariant | worker/interval.go:59-70 | a newly built worker satisfies the invariant |
| IntervalWorker.ExecIdleIffEmpty | worker/interval.go:92-115 | as the type's doc comment (line 19) promises, idle exactly when the queue is empty: if the worker holds a timer handle exactly when items are queued, every state any trace of pushes and firings reaches does too: a push sets the handle, a draining firing clears it, and a firing that leaves items keeps it |
| IntervalWorker.ExecFromNewIdleIffEmpty | worker/interval.go:46-115 | from a new worker, every reached state is idle (nil handle) exactly when the queue is empty |
| IntervalWorker.Conservation | worker/interval.go:92-115 | over any trace, delivered items followed by queued items are the earlier ones plus the pushed items in push order, so nothing is lost or duplicated |
| IntervalWorker.ConservationFromNew | worker/interval.go:46-115 | from a new worker, delivered followed by queued is exactly the pushed items in push order |
| IntervalWorker.DrainsEverything | worker/interval.go:100-115 | with a positive take count and no new pushes, \|queue\| firings deliver every queued item once and in order and empty the queue |
| IntervalWorker.IdleArmedIdle | worker/interval.go:92-115 | one push arms an idle worker; the firing delivers that item and returns the worker to idle |
| IntervalWorker.TwoPerTick | worker/interval.go:92-115 | with TakeCount 2, pushing A, B, C delivers A then B at the first firing (still armed) and C at the second (idle), with nothing delivered twice |
| SliceDiff.Diff | slice/diff.go:7-35 | an s2 element goes to common iff it is in s1 and not earlier in s2, and to s2Only otherwise, both in s2 order; s1Only is the set of s1 elements not in s2 |
| SliceDiff.PickSplits | slice/diff.go:17-26 | routing by a mask sends every element to exactly one side, preserving how often it occurs |
| SliceDiff.DiffSplitsS2 | slice/diff.go:17-26 | \|common\| + \|s2Only\| == \|s2\|, and together they hold every element of s2 as often as s2 does |
| SliceDiff.DiffSets | slice/diff.go:9-31 | common has no duplicates and its elements are those in both inputs; s1Only and common are disjoint and together make up the elements of s1 |
| SliceDiff.DiffCounts | slice/diff.go:17-26 | an element of both inputs is in common exactly once, so its later s2 occurrences go to s2Only; any other element is never in common |
| SliceDiff.DiffStep | slice/diff.go:17-26 | appending x to s2 routes x against what is still unmatched: to common and out of the unmatched set if it is there, to s2Only otherwise |
| SliceDiff.DiffEmpty | slice/diff_test.go:22-31 | both inputs empty give three empty outputs; an empty s2 leaves all of s1 in s1Only |
| SliceDiff.DiffIdentical | slice/diff_test.go:32-39 | identical repeat-free inputs put everything in common and nothing elsewhere |
| SliceDiff.DiffOneDifference | slice/diff_test.go:40-49 | for distinct a, b, c, d (the test's "a", "b", "c", "d"), [a, b, c] against [a, b, d] gives s1Only {c}, s2Only [d], common [a, b] |
| SliceDiff.DiffMultipleDifferences | slice/diff_test.go:50-59 | for distinct a, b, c, d, e, [a, b, c] against [a, d, e] gives s1Only {b, c}, s2Only [d, e], common [a] |
| Mux.NewMiddlewareMux | http/mux.go:12-17 | the mux keeps its arguments in argument order; the handler's wrappers, outermost first, are those arguments |
| Mux.Use | http/mux.go:19-21 | new middleware go after the existing ones, which keep their places; in the handler the new middleware sit inside the earlier ones |
| Mux.Compose | http/mux.go:24-29 | the fold from the last middleware to the first gives m[0](m[1](...m[n-1](base))); the wrappers, outermost first, are the registration order; the depth equals the middleware count |
| Mux.NestLayers | http/mux.go:23-29 | reading the handler's wrappers from the outside in gives the registration order, so the first registered is outermost |
| Mux.NestDepth | http/mux.go:27-29 | each registered middleware wraps the handler exactly once |
| Mux.NoMiddlewareIsBase | http/mux.go:25-29 | with no middleware the handler is the base mux |
| Mux.NestConcat | http/mux.go:19-29 | the handler for a + b is the handler for a with the handler for b as its innermost part |
| Mux.UseTwice | http/mux.go:19-21 | Use(a) then Use(b) registers the same list, and so builds the same handler, as Use(a, b) |

## Left out

- The `sync.RWMutex` in `ConcurrentQueue` (`ds/queue.go:12-13, 21-41`): it only serialises calls, and the model is single-threaded.
- Real timers (`time.AfterFunc` and `Reset`): only whether the timer handle is non-nil is kept. A pending timer can outlive a nil handle: after a direct `Run` drains the queue, the handle is nil but the timer armed by `Push` still fires later, as one more `Run`. `Interval` is carried through as a nanosecond count but has no effect on the model.
- The worker pool, `context`, `WaitGroup`, the handoff channel and `Close` (`worker/interval.go:56-57, 72-86, 117-121`). These are concurrency only, and the pool is never sent work. The only part of them modelled is the channel's panic on a negative capacity.
- The race between concurrent `Push` calls and a timer-fired `Run` on the unguarded timer handle: it needs interleavings, and the model is sequential.
- The callback's own effects: each call is recorded as an entry in `delivered`.
- Queue.Take: requires a non-negative count instead of modelling the panic of `make` at `ds/queue.go:61`. The worker's `Run` models that panic where it calls `Take` with its take count.
- SliceDiff.Diff: `s1Only` is returned as a set. The source builds it by iterating over a map, so its order is unspecified. Under reflexive equality that slice has no duplicates, which a set captures.
- SliceDiff.Diff: equality on `T` is Dafny's, which is reflexive. Go's `comparable` equality is not. Each float NaN inserted at `slice/diff.go:13` becomes a new map key, and the lookup at `:18` never finds it. So Go's `Diff([NaN, NaN], [NaN])` gives two NaNs in s1Only, `[NaN]` in s2Only and nothing in common, where the model puts NaN in common. An interface-typed `T` holding an unhashable value panics at `:13`. The model covers neither case.
- `net/http` routing, `ResponseWriter` and `Request` in `http/mux.go`: library internals; only the order of the wrappers is modelled.
- The unused `Event` struct (`ds/queue.go:7-9`).
- `Queue.Len` (`ds/queue.go:68-70`) has no contract of its own, since it only returns the length. `Queue.LenAccounting` states how pushes and takes change it.
- `Concurrent.NewConcurrentQueue` (`ds/queue.go:16-18`) has no contract of its own. It builds the empty wrapper, and `Concurrent.PushThenTakeAll` starts from it.
- The `Push`, `Pop`, `Len` and `Take` wrappers of `ConcurrentQueue` (`ds/queue.go:20-42`) have no contracts of their own. Each passes the call on to the package function, whose contract applies. `Concurrent.PushEachDelegates` states this for `Push`, and `Concurrent.PushThenTakeAll` states FIFO order through the wrapper.
- IntervalWorker.New: Go's `int` is 64 bits and the model's is unbounded. `make(chan T, opts.WorkerCount)` at `worker/interval.go:56` also panics ("makechan: size out of range") when the count times the element size overflows or exceeds the allocation limit, for example `T = int` with a count of `1 << 60`. For a zero-size `T` the channel is built, but the loop at `:73-86` then starts that many goroutines and runs out of memory. The model returns `Ok` in both cases. Its panic is only for a negative count.
- IntervalWorker.New: `NewIntervalWorker` writes the defaults back into the caller's `*opts` (`worker/interval.go:48`, `:51`, `:54`). The model returns no updated options. The values written back are `WithDefaults(opts)`, which `New`'s contract gives as the worker's fields. A nil `opts` is dereferenced at `:47` and panics. The model has no nil options, so that panic is not modelled.
- IntervalWorker.Run: a nil `onEventFn` panics at `worker/interval.go:106` on the first `Run` with a non-empty queue. The callback is abstracted to the `delivered` log, so that panic is not modelled.
- Mux.Use: the Go mux stores the caller's variadic slice itself (`http/mux.go:15`), and `Use` appends in place (`:20`). Two muxes built from one slice with spare capacity therefore share storage. After `m1.Use(a)` and then `m2.Use(b)`, m1's new entry is `b`. The model has value semantics and no sharing, so its statement that existing middleware keep their places holds only for a mux whose slice no other mux shares. Mux.NewMiddlewareMux is affected in the same way.

=== FILE: diff.dfy ===
/**
 Three-way difference of two slices. The elements of the first slice are put
 in a set of known elements; each element of the second slice, in order, is
 either matched against that set (appended to `common` and removed from the
 set, so only its first occurrence matches) or appended to `s2Only`. What is
 left of the set is `s1Only`; the source lists it by iterating over a map, in
 no particular order, so it is modelled as a set.
 */
module SliceDiff {

  function Elems<T(==)>(s: seq<T>): set<T> {
    set x | x in s
  }

  predicate Distinct<T(==)>(s: seq<T>) {
    forall i, j :: 0 <= i < j < |s| ==> s[i] != s[j]
  }

  /** The routing rule: `s2[i]` goes to `common` exactly when it occurs in
      `s1` and has not occurred earlier in `s2`. */
  predicate FirstMatch<T(==)>(s1: seq<T>, s2: seq<T>, i: int)
    requires 0 <= i < |s2|
  {
    s2[i] in s1 && s2[i] !in s2[..i]
  }

  /** The routing decision for every position of `s2`. */
  function Mask<T(==)>(s1: seq<T>, s2: seq<T>): seq<bool> {
    seq(|s2|, i requires 0 <= i < |s2| => FirstMatch(s1, s2, i))
  }

  /** The elements of `s` whose mask bit is `b`, in order. */
  function Pick<T>(s: seq<T>, mask: seq<bool>, b: bool): seq<T>
    requires |mask| == |s|
    decreases |s|
  {
    if |s| == 0 then []
    else (if mask[0] == b then [s[0]] else []) + Pick(s[1..], mask[1..], b)
  }

  /** Extending the sequence and its mask by one position extends the pick
      by that element when its bit matches. */
  lemma {:induction false} PickSnoc<T>(s: seq<T>, mask: seq<bool>, x: T, m: bool, b: bool)
    requires |mask| == |s|
    ensures Pick(s + [x], mask + [m], b) == Pick(s, mask, b) + (if m == b then [x] else [])
    decreases |s|
  {
    if |s| > 0 {
      PickSnoc(s[1..], mask[1..], x, m, b);
      assert (s + [x])[1..] == s[1..] + [x];
      assert (mask + [m])[1..] == mask[1..] + [m];
    }
  }

  datatype DiffResult<T> = DiffResult(s1Only: set<T>, s2Only: seq<T>, common: seq<T>)

  /** The loop over `s2` unrolled from its last step: the result for `s2` is
      the result for `s2` without its last element, followed by routing that
      element. While the loop runs, `s1Only` is the set of still-unmatched
      known elements. */
  function Diff<T(==)>(s1: seq<T>, s2: seq<T>): (r: DiffResult<T>)
    ensures r.common == Pick(s2, Mask(s1, s2), true)
    ensures r.s2Only == Pick(s2, Mask(s1, s2), false)
    ensures r.s1Only == Elems(s1) - Elems(s2)
    decreases |s2|
  {
    if |s2| == 0 then DiffResult(Elems(s1), [], [])
    else
      var n := |s2| - 1;
      var prev := Diff(s1, s2[..n]);
      var x := s2[n];
      assert Mask(s1, s2)[..n] == Mask(s1, s2[..n]) by {
        forall i | 0 <= i < n
          ensures s2[..n][..i] == s2[..i]
        {
        }
      }
      assert s2 == s2[..n] + [x];
      assert Mask(s1, s2) == Mask(s1, s2[..n]) + [FirstMatch(s1, s2, n)];
      PickSnoc(s2[..n], Mask(s1, s2[..n]), x, FirstMatch(s1, s2, n), true);
      PickSnoc(s2[..n], Mask(s1, s2[..n]), x, FirstMatch(s1, s2, n), false);
      assert Elems(s2) == Elems(s2[..n]) + {x};
      if x in prev.s1Only then DiffResult(prev.s1Only - {x}, prev.s2Only, prev.common + [x])
      else DiffResult(prev.s1Only, prev.s2Only + [x], prev.common)
  }

  /** The two picks of a mask split the sequence: together they hold each
      element exactly as often as the sequence does. */
  lemma {:induction false} PickSplits<T>(s: seq<T>, mask: seq<bool>)
    requires |mask| == |s|
    ensures |Pick(s, mask, true)| + |Pick(s, mask, false)| == |s|
    ensures multiset(Pick(s, mask, true)) + multiset(Pick(s, mask, false)) == multiset(s)
    decreases |s|
  {
    if |s| > 0 {
      PickSplits(s[1..], mask[1..]);
      assert s == [s[0]] + s[1..];
    }
  }

  /** Every element of `s2` is routed to exactly one of `common` and
      `s2Only`. */
  lemma DiffSplitsS2<T>(s1: seq<T>, s2: seq<T>)
    ensures |Diff(s1, s2).common| + |Diff(s1, s2).s2Only| == |s2|
    ensures multiset(Diff(s1, s2).common) + multiset(Diff(s1, s2).s2Only) == multiset(s2)
  {
    PickSplits(s2, Mask(s1, s2));
  }

  /** `common` repeats nothing and is, as a set, the intersection of the two
      inputs; `s1Only` and `common` split the elements of `s1`. */
  lemma {:induction false} DiffSets<T>(s1: seq<T>, s2: seq<T>)
    ensures Distinct(Diff(s1, s2).common)
    ensures Elems(Diff(s1, s2).common) == Elems(s1) * Elems(s2)
    ensures Diff(s1, s2).s1Only + Elems(Diff(s1, s2).common) == Elems(s1)
    ensures Diff(s1, s2).s1Only * Elems(Diff(s1, s2).common) == {}
    decreases |s2|
  {
    if |s2| > 0 {
      var n := |s2| - 1;
      var s2', x := s2[..n], s2[n];
      assert s2 == s2' + [x];
      var prev := Diff(s1, s2');
      DiffSets(s1, s2');
      DiffStep(s1, s2', x);
      assert Elems(s2) == Elems(s2') + {x};
      if x in prev.s1Only {
        var c := prev.common + [x];
        assert Elems(c) == Elems(prev.common) + {x};
        forall i, j | 0 <= i < j < |c|
          ensures c[i] != c[j]
        {
          if j == |c| - 1 {
            assert c[i] in Elems(prev.common);
          }
        }
      }
    }
  }

  /** Each element of both inputs appears in `common` exactly once, every
      other element not at all; `s2Only` keeps the rest of `s2`'s copies. */
  lemma DiffCounts<T>(s1: seq<T>, s2: seq<T>, x: T)
    ensures multiset(Diff(s1, s2).common)[x] == (if x in s1 && x in s2 then 1 else 0)
    ensures multiset(Diff(s1, s2).s2Only)[x] == multiset(s2)[x] - (if x in s1 && x in s2 then 1 else 0)
  {
    var r := Diff(s1, s2);
    DiffSets(s1, s2);
    DiffSplitsS2(s1, s2);
    DistinctCountsOnce(r.common, x);
    assert x in r.common <==> x in Elems(r.common);
  }

  /** In a sequence without repeats an element occurs once or not at all. */
  lemma {:induction false} DistinctCountsOnce<T>(s: seq<T>, x: T)
    requires Distinct(s)
    ensures multiset(s)[x] == (if x in s then 1 else 0)
    decreases |s|
  {
    if |s| > 0 {
      var n := |s| - 1;
      assert s == s[..n] + [s[n]];
      assert Distinct(s[..n]);
      DistinctCountsOnce(s[..n], x);
      if s[n] == x {
        assert x !in s[..n];
      }
    }
  }

  /** Empty inputs give empty outputs; an empty `s2` leaves every element of
      `s1` unmatched. */
  lemma DiffEmpty<T>(s1: seq<T>)
    ensures Diff<T>([], []) == DiffResult({}, [], [])
    ensures Diff(s1, []) == DiffResult(Elems(s1), [], [])
  {
  }

  /** A mask that is `b` everywhere picks the whole sequence for `b` and
      nothing for the other bit. */
  lemma {:induction false} PickUniform<T>(s: seq<T>, mask: seq<bool>, b: bool)
    requires |mask| == |s|
    requires forall i :: 0 <= i < |mask| ==> mask[i] == b
    ensures Pick(s, mask, b) == s
    ensures Pick(s, mask, !b) == []
    decreases |s|
  {
    if |s| > 0 {
      PickUniform(s[1..], mask[1..], b);
      assert s == [s[0]] + s[1..];
    }
  }

  /** Identical repeat-free inputs are all common. */
  lemma DiffIdentical<T>(s: seq<T>)
    requires Distinct(s)
    ensures Diff(s, s) == DiffResult({}, [], s)
  {
    var mask := Mask(s, s);
    forall i | 0 <= i < |s|
      ensures mask[i]
    {
      assert s[i] !in s[..i];
    }
    PickUniform(s, mask, true);
  }

  /** Appending one element to `s2` routes it against what is still
      unmatched: the loop's single step. */
  lemma DiffStep<T>(s1: seq<T>, s2: seq<T>, x: T)
    ensures var prev := Diff(s1, s2);
            Diff(s1, s2 + [x]) ==
              if x in prev.s1Only then DiffResult(prev.s1Only - {x}, prev.s2Only, prev.common + [x])
              else DiffResult(prev.s1Only, prev.s2Only + [x], prev.common)
  {
    assert (s2 + [x])[..|s2|] == s2;
  }

  /** One differing element: "abc" against "abd". */
  lemma DiffOneDifference<T>(a: T, b: T, c: T, d: T)
    requires Distinct([a, b, c, d])
    ensures Diff([a, b, c], [a, b, d]) == DiffResult({c}, [d], [a, b])
  {
    var s := [a, b, c, d];
    assert a == s[0] && b == s[1] && c == s[2] && d == s[3];
    var s1 := [a, b, c];
    assert Elems(s1) == {a, b, c};
    assert Diff(s1, []) == DiffResult({a, b, c}, [], []);
    DiffStep(s1, [], a);
    assert [] + [a] == [a];
    assert Diff(s1, [a]) == DiffResult({b, c}, [], [a]);
    DiffStep(s1, [a], b);
    assert [a] + [b] == [a, b];
    assert Diff(s1, [a, b]) == DiffResult({c}, [], [a, b]);
    DiffStep(s1, [a, b], d);
    assert [a, b] + [d] == [a, b, d];
  }

  /** Two differing elements: "abc" against "ade". */
  lemma DiffMultipleDifferences<T>(a: T, b: T, c: T, d: T, e: T)
    requires Distinct([a, b, c, d, e])
    ensures Diff([a, b, c], [a, d, e]) == DiffResult({b, c}, [d, e], [a])
  {
    var s := [a, b, c, d, e];
    assert a == s[0] && b == s[1] && c == s[2] && d == s[3] && e == s[4];
    var s1 := [a, b, c];
    assert Elems(s1) == {a, b, c};
    assert Diff(s1, []) == DiffResult({a, b, c}, [], []);
    DiffStep(s1, [], a);
    assert [] + [a] == [a];
    assert Diff(s1, [a]) == DiffResult({b, c}, [], [a]);
    DiffStep(s1, [a], d);
    assert [a] + [d] == [a, d];
    assert Diff(s1, [a, d]) == DiffResult({b, c}, [d], [a]);
    DiffStep(s1, [a, d], e);
    assert [a, d] + [e] == [a, d, e];
  }
}

=== FILE: interval.dfy ===
/**
 The interval worker as a sequential state machine. The timer handle is
 abstracted to the flag `armed` (the handle is non-nil), and each call of the
 per-item callback is recorded by appending the item to `delivered`. A
 runtime panic of the Go program (a negative `make` size, a `Reset` on a nil
 timer) ends the run and is returned as `Panicked`.
 */
module IntervalWorker {
  import Queue
  import opened Concurrent

  /** Durations count nanoseconds, as a time.Duration does. */
  const Millisecond: int := 1_000_000
  const Second: int := 1000 * Millisecond

  const DefaultInterval: int := 5 * Second
  const DefaultTakeCount: int := 5
  const DefaultWorkerCount: int := 1

  datatype Options = Options(interval: int, takeCount: int, workerCount: int)

  /** Fills every zero-valued option with its default. Only zero counts as
      unset: a negative value is kept. */
  function WithDefaults(opts: Options): (r: Options)
    ensures opts.interval == 0 ==> r.interval == DefaultInterval
    ensures opts.interval != 0 ==> r.interval == opts.interval
    ensures opts.takeCount == 0 ==> r.takeCount == DefaultTakeCount
    ensures opts.takeCount != 0 ==> r.takeCount == opts.takeCount
    ensures opts.workerCount == 0 ==> r.workerCount == DefaultWorkerCount
    ensures opts.workerCount != 0 ==> r.workerCount == opts.workerCount
  {
    var interval := if opts.interval == 0 then DefaultInterval else opts.interval;
    var takeCount := if opts.takeCount == 0 then DefaultTakeCount else opts.takeCount;
    var workerCount := if opts.workerCount == 0 then DefaultWorkerCount else opts.workerCount;
    Options(interval, takeCount, workerCount)
  }

  /** Defaulting leaves no field unset, so applying it again changes nothing. */
  lemma WithDefaultsIdempotent(opts: Options)
    ensures var d := WithDefaults(opts);
            d.interval != 0 && d.takeCount != 0 && d.workerCount != 0
            && WithDefaults(d) == d
  {
  }

  /** The runtime panics the worker can raise. */
  datatype Panic =
    | NegativeChannelSize   // make(chan T, n) with n < 0
    | NegativeSliceLength   // make([]T, n) with n < 0, inside Take
    | NilTimerReset         // Reset called through a nil timer handle

  datatype Result<T> = Ok(value: T) | Panicked(cause: Panic)

  datatype Worker<T> = Worker(
    interval: int,
    takeCount: int,
    workerCount: int,
    q: ConcurrentQueue<T>,
    armed: bool,          // the timer handle is non-nil
    delivered: seq<T>     // the items handed to the callback, in call order
  )

  /** Builds a worker from defaulted options: an empty queue, no timer, no
      deliveries. The handoff channel's capacity is the worker count, so a
      negative count panics. */
  function New<T>(opts: Options): (r: Result<Worker<T>>)
    ensures r.Panicked? <==> WithDefaults(opts).workerCount < 0
    ensures r.Panicked? ==> r.cause == NegativeChannelSize
    ensures r.Ok? ==>
              var d := WithDefaults(opts);
              && r.value.interval == d.interval
              && r.value.takeCount == d.takeCount
              && r.value.workerCount == d.workerCount
              && r.value.q.IsEmpty()
              && !r.value.armed
              && r.value.delivered == []
  {
    var d := WithDefaults(opts);
    if d.workerCount < 0 then Panicked(NegativeChannelSize)
    else Ok(Worker(d.interval, d.takeCount, d.workerCount, NewConcurrentQueue(), false, []))
  }

  /** `a` and `b` carry the same configuration. */
  predicate SameConfig<T>(a: Worker<T>, b: Worker<T>) {
    a.interval == b.interval && a.takeCount == b.takeCount && a.workerCount == b.workerCount
  }

  /** Enqueues `t` and arms a timer if the handle is nil. */
  function Push<T>(w: Worker<T>, t: T): (r: Worker<T>)
    ensures |r.q.underlying| == |w.q.underlying| + 1
    ensures r.q.underlying[..|w.q.underlying|] == w.q.underlying
    ensures r.q.underlying[|w.q.underlying|] == t
    ensures r.armed
    ensures r.delivered == w.delivered && SameConfig(r, w)
  {
    var w' := w.(q := w.q.Push(t));
    if !w'.armed then w'.(armed := true) else w'
  }

  /** One timer firing. An empty queue is a no-op that leaves the timer flag
      as it is. Otherwise up to `takeCount` items are taken and delivered in
      queue order; then the timer is cleared if the queue is empty and reset
      (which needs a timer) if not. */
  function Run<T>(w: Worker<T>): (r: Result<Worker<T>>)
    ensures w.q.IsEmpty() ==> r == Ok(w)
    ensures !w.q.IsEmpty() && w.takeCount < 0 ==> r == Panicked(NegativeSliceLength)
    ensures !w.q.IsEmpty() && w.takeCount >= 0 ==>
              var k := Queue.Min(w.takeCount, |w.q.underlying|);
              && (r.Ok? <==> k == |w.q.underlying| || w.armed)
              && (r.Panicked? ==> r.cause == NilTimerReset)
              && (r.Ok? ==>
                    && r.value.delivered == w.delivered + w.q.underlying[..k]
                    && r.value.q.underlying == w.q.underlying[k..]
                    && (r.value.armed <==> k < |w.q.underlying|)
                    && SameConfig(r.value, w))
    ensures r.Ok? ==> |r.value.delivered| <= |w.delivered| + Queue.Max(w.takeCount, 0)
  {
    if w.q.IsEmpty() then Ok(w)
    else if w.takeCount < 0 then Panicked(NegativeSliceLength)
    else
      var (batch, rest) := w.q.Take(w.takeCount);
      var w' := w.(q := rest, delivered := w.delivered + batch);
      if w'.q.IsEmpty() then Ok(w'.(armed := false))
      else if !w'.armed then Panicked(NilTimerReset)
      else Ok(w')
  }

  /** Whenever items are queued the timer handle is non-nil: this is what keeps the
      reset in Run away from a nil timer. */
  predicate Invariant<T>(w: Worker<T>) {
    !w.q.IsEmpty() ==> w.armed
  }

  lemma PushKeepsInvariant<T>(w: Worker<T>, t: T)
    ensures Invariant(Push(w, t))
  {
  }

  lemma RunKeepsInvariant<T>(w: Worker<T>)
    requires Invariant(w)
    ensures Run(w).Ok? ==> Invariant(Run(w).value)
  {
  }

  /** Under the invariant, Run never resets a nil timer; the only panic left
      is a negative take count meeting a non-empty queue. */
  lemma RunNeverResetsNilTimer<T>(w: Worker<T>)
    requires Invariant(w)
    ensures Run(w).Panicked? <==> !w.q.IsEmpty() && w.takeCount < 0
  {
  }

  /** What can happen to a worker: a producer pushes, or the timer fires.
      `Fired` may occur while the timer handle is nil. `Run` is exported, so a
      caller can invoke it directly, and traces cover those calls too. */
  datatype Event<T> = Pushed(item: T) | Fired

  function Step<T>(w: Worker<T>, e: Event<T>): Result<Worker<T>> {
    match e
    case Pushed(t) => Ok(Push(w, t))
    case Fired => Run(w)
  }

  /** Applies the events in order; the first panic ends the run. */
  function Exec<T>(w: Worker<T>, trace: seq<Event<T>>): Result<Worker<T>>
    decreases |trace|
  {
    if |trace| == 0 then Ok(w)
    else
      match Step(w, trace[0])
      case Panicked(c) => Panicked(c)
      case Ok(w') => Exec(w', trace[1..])
  }

  /** The items pushed by `trace`, in push order. */
  function PushedItems<T>(trace: seq<Event<T>>): seq<T>
    decreases |trace|
  {
    if |trace| == 0 then []
    else (if trace[0].Pushed? then [trace[0].item] else []) + PushedItems(trace[1..])
  }

  /** Every state reached from a state satisfying the invariant satisfies it. */
  lemma {:induction false} ExecKeepsInvariant<T>(w: Worker<T>, trace: seq<Event<T>>)
    requires Invariant(w)
    ensures Exec(w, trace).Ok? ==> Invariant(Exec(w, trace).value)
    decreases |trace|
  {
    if |trace| > 0 {
      match Step(w, trace[0])
      case Panicked(_) =>
      case Ok(w') =>
        if trace[0].Pushed? {
          PushKeepsInvariant(w, trace[0].item);
        } else {
          RunKeepsInvariant(w);
        }
        ExecKeepsInvariant(w', trace[1..]);
    }
  }

  /** No sequence of pushes and firings from a state satisfying the
      invariant, a freshly built worker among them, ever resets a nil timer. */
  lemma {:induction false} NeverNilTimerReset<T>(w: Worker<T>, trace: seq<Event<T>>)
    requires Invariant(w)
    ensures Exec(w, trace) != Panicked(NilTimerReset)
    decreases |trace|
  {
    if |trace| > 0 {
      if trace[0].Fired? {
        RunNeverResetsNilTimer(w);
      }
      match Step(w, trace[0])
      case Panicked(_) =>
      case Ok(w') =>
        if trace[0].Pushed? {
          PushKeepsInvariant(w, trace[0].item);
        } else {
          RunKeepsInvariant(w);
        }
        NeverNilTimerReset(w', trace[1..]);
    }
  }

  lemma NewSatisfiesInvariant<T>(opts: Options)
    ensures New<T>(opts).Ok? ==> Invariant(New<T>(opts).value)
  {
  }

  /** The worker is idle exactly when its queue is empty: it holds a timer
      handle while items wait and drops it once a firing drains the queue.
      Every state reached from such a state is again such a state. */
  lemma {:induction false} ExecIdleIffEmpty<T>(w: Worker<T>, trace: seq<Event<T>>)
    requires w.armed <==> !w.q.IsEmpty()
    ensures Exec(w, trace).Ok? ==> (Exec(w, trace).value.armed <==> !Exec(w, trace).value.q.IsEmpty())
    decreases |trace|
  {
    if |trace| > 0 {
      match Step(w, trace[0])
      case Panicked(_) =>
      case Ok(w') =>
        ExecIdleIffEmpty(w', trace[1..]);
    }
  }

  /** From a new worker, every reached state holds a timer handle exactly
      when items are queued. */
  lemma ExecFromNewIdleIffEmpty<T>(opts: Options, trace: seq<Event<T>>)
    ensures New<T>(opts).Ok? && Exec(New<T>(opts).value, trace).Ok? ==>
              var w := Exec(New<T>(opts).value, trace).value;
              w.armed <==> !w.q.IsEmpty()
  {
    if New<T>(opts).Ok? {
      ExecIdleIffEmpty(New<T>(opts).value, trace);
    }
  }

  /** Conservation: the delivered items followed by the queued items are
      always the items pushed, in push order; nothing is lost or repeated. */
  lemma {:induction false} Conservation<T>(w: Worker<T>, trace: seq<Event<T>>)
    ensures Exec(w, trace).Ok? ==>
              var w' := Exec(w, trace).value;
              w'.delivered + w'.q.underlying == w.delivered + w.q.underlying + PushedItems(trace)
    decreases |trace|
  {
    if |trace| > 0 {
      match Step(w, trace[0])
      case Panicked(_) =>
      case Ok(w') =>
        Conservation(w', trace[1..]);
        if trace[0].Fired? && !w.q.IsEmpty() {
          var k := Queue.Min(w.takeCount, |w.q.underlying|);
          assert w.q.underlying == w.q.underlying[..k] + w.q.underlying[k..];
        }
    }
  }

  /** From a freshly built worker, delivered + queued == pushed. */
  lemma ConservationFromNew<T>(opts: Options, trace: seq<Event<T>>)
    requires New<T>(opts).Ok?
    ensures var w0 := New<T>(opts).value;
            Exec(w0, trace).Ok? ==>
              Exec(w0, trace).value.delivered + Exec(w0, trace).value.q.underlying == PushedItems(trace)
  {
    Conservation(New<T>(opts).value, trace);
  }

  /** `n` timer firings in a row. */
  function Fires<T>(n: nat): seq<Event<T>> {
    seq(n, _ => Fired)
  }

  /** With a positive take count and no new pushes, |queue| firings deliver
      every queued item, in order, and leave the worker idle. */
  lemma {:induction false} DrainsEverything<T>(w: Worker<T>, n: nat)
    requires Invariant(w) && w.takeCount > 0
    requires n >= |w.q.underlying|
    ensures Exec(w, Fires(n)).Ok?
    ensures Exec(w, Fires(n)).value.delivered == w.delivered + w.q.underlying
    ensures Exec(w, Fires(n)).value.q.IsEmpty()
    decreases n
  {
    if n > 0 {
      var trace := Fires<T>(n);
      assert trace[0] == Fired;
      assert trace[1..] == Fires(n - 1);
      if w.q.IsEmpty() {
        DrainsEverything(w, n - 1);
        assert w.q.underlying == [];
      } else {
        RunNeverResetsNilTimer(w);
        var w' := Run(w).value;
        RunKeepsInvariant(w);
        DrainsEverything(w', n - 1);
        var k := Queue.Min(w.takeCount, |w.q.underlying|);
        assert w.q.underlying == w.q.underlying[..k] + w.q.underlying[k..];
      }
    }
  }

  /** One item pushed onto an idle worker arms the timer; the firing delivers
      it and returns the worker to idle. */
  lemma IdleArmedIdle<T>(opts: Options, x: T)
    requires New<T>(opts).Ok? && WithDefaults(opts).takeCount > 0
    ensures var w0 := New<T>(opts).value;
            && Push(w0, x).armed
            && Run(Push(w0, x)).Ok?
            && Run(Push(w0, x)).value.delivered == [x]
            && !Run(Push(w0, x)).value.armed
  {
  }

  /** With a take count of 2, pushing A, B, C delivers A then B at the first
      firing, C at the second, and nothing twice. */
  lemma TwoPerTick<T>(a: T, b: T, c: T)
    ensures var w0 := New<T>(Options(10 * Millisecond, 2, 0)).value;
            var w3 := Push(Push(Push(w0, a), b), c);
            && Run(w3).Ok?
            && Run(w3).value.delivered == [a, b]
            && Run(w3).value.armed
            && Run(Run(w3).value).Ok?
            && Run(Run(w3).value).value.delivered == [a, b, c]
            && !Run(Run(w3).value).value.armed
  {
  }
}

=== FILE: mux.dfy ===
/**
 A request multiplexer with an ordered list of middleware. Serving a request
 wraps the base multiplexer in every middleware, folding from the last one
 registered to the first, so the first registered middleware is the
 outermost wrapper and runs first. Middleware are opaque tags here, and a
 handler is the nesting of tags around the base multiplexer.
 */
module Mux {

  datatype Handler<M> = Base | Wrap(middleware: M, inner: Handler<M>)

  datatype MiddlewareMux<M> = MiddlewareMux(middleware: seq<M>)

  /** The handler m[0](m[1](...m[n-1](Base))). */
  function Nest<M>(ms: seq<M>): Handler<M>
    decreases |ms|
  {
    if |ms| == 0 then Base else Wrap(ms[0], Nest(ms[1..]))
  }

  /** The wrappers of `h`, outermost first. */
  function Layers<M>(h: Handler<M>): seq<M> {
    match h
    case Base => []
    case Wrap(m, inner) => [m] + Layers(inner)
  }

  /** How many wrappers sit around the base. */
  function Depth<M>(h: Handler<M>): nat {
    match h
    case Base => 0
    case Wrap(_, inner) => 1 + Depth(inner)
  }

  /** Replaces the base of `h` by `inner`. */
  function Plug<M>(h: Handler<M>, inner: Handler<M>): Handler<M> {
    match h
    case Base => inner
    case Wrap(m, rest) => Wrap(m, Plug(rest, inner))
  }

  /** A mux holding `ms` in argument order: its handler's wrappers, read
      from the outside in, are exactly `ms`. */
  function NewMiddlewareMux<M>(ms: seq<M>): (r: MiddlewareMux<M>)
    ensures r.middleware == ms
    ensures Layers(Nest(r.middleware)) == ms
  {
    NestLayers(ms);
    MiddlewareMux(ms)
  }

  /** Registers `ms` after the middleware already present, which keep their
      places; in the handler the new middleware sit inside the old ones. */
  function Use<M>(mux: MiddlewareMux<M>, ms: seq<M>): (r: MiddlewareMux<M>)
    ensures |r.middleware| == |mux.middleware| + |ms|
    ensures r.middleware[..|mux.middleware|] == mux.middleware
    ensures r.middleware[|mux.middleware|..] == ms
    ensures Nest(r.middleware) == Plug(Nest(mux.middleware), Nest(ms))
  {
    NestConcat(mux.middleware, ms);
    MiddlewareMux(mux.middleware + ms)
  }

  /** The handler a request is served by: starting from the base, the
      middleware are applied from the last registered to the first. */
  method Compose<M>(mux: MiddlewareMux<M>) returns (h: Handler<M>)
    ensures h == Nest(mux.middleware)
    ensures Layers(h) == mux.middleware
    ensures Depth(h) == |mux.middleware|
  {
    var ms := mux.middleware;
    var n := |ms|;
    h := Base;
    var i := 0;
    while i < n
      invariant 0 <= i <= n
      invariant h == Nest(ms[n - i..])
    {
      assert ms[n - 1 - i..][1..] == ms[n - i..];
      h := Wrap(ms[n - 1 - i], h);
      i := i + 1;
    }
    assert ms[n - n..] == ms;
    NestLayers(ms);
    NestDepth(ms);
  }

  /** Reading the wrappers of the nested handler from the outside in gives
      the registration order back. */
  lemma {:induction false} NestLayers<M>(ms: seq<M>)
    ensures Layers(Nest(ms)) == ms
    decreases |ms|
  {
    if |ms| > 0 {
      NestLayers(ms[1..]);
      assert [ms[0]] + ms[1..] == ms;
    }
  }

  /** Each middleware is applied exactly once. */
  lemma {:induction false} NestDepth<M>(ms: seq<M>)
    ensures Depth(Nest(ms)) == |ms|
    decreases |ms|
  {
    if |ms| > 0 {
      NestDepth(ms[1..]);
    }
  }

  /** With no middleware the request goes straight to the base. */
  lemma NoMiddlewareIsBase<M>()
    ensures Nest<M>([]) == Base
  {
  }

  /** Registering more middleware nests them inside the earlier ones: the
      handler for a + b is the handler for a with the handler for b as its
      innermost part. */
  lemma {:induction false} NestConcat<M>(a: seq<M>, b: seq<M>)
    ensures Nest(a + b) == Plug(Nest(a), Nest(b))
    decreases |a|
  {
    if |a| > 0 {
      NestConcat(a[1..], b);
      assert (a + b)[1..] == a[1..] + b;
    } else {
      assert a + b == b;
    }
  }

  /** Two Use calls register the same list, and so build the same handler,
      as one Use call with both arguments. */
  lemma UseTwice<M>(mux: MiddlewareMux<M>, a: seq<M>, b: seq<M>)
    ensures Use(Use(mux, a), b) == Use(mux, a + b)
  {
    assert mux.middleware + a + b == mux.middleware + (a + b);
  }
}

=== FILE: queue.dfy ===
/**
 A FIFO queue kept as a slice: the head is at index 0 and pushes append at
 the tail. The package-level operations are pure functions from the old
 slice to the new one; `ConcurrentQueue` wraps the same operations, and since
 its read-write lock only serialises calls, it is modelled without the lock.
 */
module Queue {

  function Min(a: int, b: int): int {
    if a <= b then a else b
  }

  function Max(a: int, b: int): int {
    if a >= b then a else b
  }

  /** Appends `n` at the tail of `q`. */
  function Push<T>(q: seq<T>, n: T): (r: seq<T>)
    ensures |r| == |q| + 1
    ensures r[..|q|] == q
    ensures r[|q|] == n
  {
    q + [n]
  }

  /** Removes the head of `q`. On an empty queue the result is the caller's
      `zero` (the zero value of the element type) and the queue is unchanged. */
  function Pop<T>(q: seq<T>, zero: T): (r: (T, seq<T>))
    ensures |q| == 0 ==> r == (zero, q)
    ensures |q| > 0 ==> [r.0] + r.1 == q
  {
    if |q| == 0 then (zero, q) else (q[0], q[1..])
  }

  /** Pops `k` times, collecting the popped items in order. */
  function PopN<T>(q: seq<T>, k: nat): (r: (seq<T>, seq<T>))
    requires k <= |q|
    ensures |r.0| == k
    ensures r.0 + r.1 == q
    decreases k
  {
    if k == 0 then ([], q)
    else
      // q is non-empty here, so the default handed to Pop is never returned
      var (head, tail) := Pop(q, q[0]);
      var (rest, remaining) := PopN(tail, k - 1);
      ([head] + rest, remaining)
  }

  /** Removes up to `n` items from the head: the count is clamped to the
      queue's length, then the queue is popped that many times. The result is
      the pair (taken items, remaining queue). */
  function Take<T>(q: seq<T>, n: int): (r: (seq<T>, seq<T>))
    requires n >= 0
    ensures r.0 == q[..Min(n, |q|)]
    ensures r.1 == q[Min(n, |q|)..]
    ensures n == 0 ==> r.0 == [] && r.1 == q
    ensures n >= |q| ==> r.0 == q && r.1 == []
  {
    var k := if n > |q| then |q| else n;
    var (taken, remaining) := PopN(q, k);
    assert taken == (taken + remaining)[..k];
    (taken, remaining)
  }

  /** The take loop written as the source writes it: clamp the count, then
      fill the result slot by slot with successive pops. */
  method TakeLoop<T>(q: seq<T>, n: int) returns (results: seq<T>, remaining: seq<T>)
    requires n >= 0
    ensures |results| == Min(n, |q|)
    ensures results + remaining == q
    ensures (results, remaining) == Take(q, n)
  {
    var k := n;
    if k > |q| {
      k := |q|;
    }
    results := [];
    remaining := q;
    var i := 0;
    while i < k
      invariant 0 <= i <= k <= |q|
      invariant |results| == i
      invariant results + remaining == q
    {
      var popped: (T, seq<T>) := Pop(remaining, remaining[0]);
      results := results + [popped.0];
      remaining := popped.1;
      i := i + 1;
    }
    assert results == q[..k];
  }

  function Len<T>(q: seq<T>): nat {
    |q|
  }

  /** Pushes each of `ps` in order. */
  function PushAll<T>(q: seq<T>, ps: seq<T>): seq<T>
    decreases |ps|
  {
    if |ps| == 0 then q else PushAll(Push(q, ps[0]), ps[1..])
  }

  /** Pushing a batch appends it to the tail, in order. */
  lemma {:induction false} PushAllAppends<T>(q: seq<T>, ps: seq<T>)
    ensures PushAll(q, ps) == q + ps
    decreases |ps|
  {
    if |ps| > 0 {
      PushAllAppends(Push(q, ps[0]), ps[1..]);
      assert Push(q, ps[0]) + ps[1..] == q + ps;
    }
  }

  /** FIFO: pushing p1..pk onto an empty queue and then taking k items yields
      exactly p1..pk and leaves the queue empty. */
  lemma FifoOrder<T>(ps: seq<T>)
    ensures Take(PushAll([], ps), |ps|) == (ps, [])
  {
    PushAllAppends([], ps);
    assert [] + ps == ps;
  }

  /** Every push and take changes the length by exactly the number of items
      added or removed. */
  lemma LenAccounting<T>(q: seq<T>, x: T, n: int)
    requires n >= 0
    ensures Len(Push(q, x)) == Len(q) + 1
    ensures Len(Take(q, n).1) == Len(q) - |Take(q, n).0|
  {
  }

  /** Popping after a push on a non-empty queue returns the old head, and the
      pushed item stays at the tail: the two operations commute. */
  lemma PopAfterPush<T>(q: seq<T>, x: T, zero: T)
    requires |q| > 0
    ensures Pop(Push(q, x), zero) == (q[0], Push(Pop(q, zero).1, x))
  {
    assert (q + [x])[1..] == q[1..] + [x];
  }

  /** Two successive takes of `k` return consecutive batches: the second one
      starts where the first stopped and holds min(k, m - returned) items. */
  lemma TakeTwice<T>(q: seq<T>, k: int)
    requires k >= 0
    ensures var (first, rest) := Take(q, k);
            var (second, _) := Take(rest, k);
            |second| == Min(k, |q| - |first|)
            && first + second == q[..Min(2 * k, |q|)]
  {
  }
}

/**
 `ConcurrentQueue` guards a slice with a read-write lock and delegates every
 call to the package-level operation; single-threaded, it is the same slice.
 */
module Concurrent {
  import Queue

  /** The queue value behind the concurrent wrapper; each method delegates to
      the package-level operation on `underlying`. */
  datatype ConcurrentQueue<T> = ConcurrentQueue(underlying: seq<T>) {

    function Push(n: T): ConcurrentQueue<T> {
      ConcurrentQueue(Queue.Push(underlying, n))
    }

    function Pop(zero: T): (T, ConcurrentQueue<T>) {
      var (n, rest) := Queue.Pop(underlying, zero);
      (n, ConcurrentQueue(rest))
    }

    function Len(): nat {
      Queue.Len(underlying)
    }

    function Take(n: int): (seq<T>, ConcurrentQueue<T>)
      requires n >= 0
    {
      var (taken, rest) := Queue.Take(underlying, n);
      (taken, ConcurrentQueue(rest))
    }

    /** Called by the interval worker but not defined in the queue file. */
    predicate IsEmpty() {
      Len() == 0
    }
  }

  function NewConcurrentQueue<T>(): ConcurrentQueue<T> {
    ConcurrentQueue([])
  }

  /** FIFO through the wrapper: pushing `ps` one at a time onto a new queue
      and taking |ps| items returns `ps` and leaves the queue empty. */
  lemma {:induction false} PushThenTakeAll<T>(ps: seq<T>)
    ensures var c := PushEach(NewConcurrentQueue(), ps);
            c.Len() == |ps|
            && c.Take(|ps|).0 == ps
            && c.Take(|ps|).1.IsEmpty()
  {
    PushEachDelegates(NewConcurrentQueue(), ps);
    Queue.PushAllAppends([], ps);
  }

  function PushEach<T>(c: ConcurrentQueue<T>, ps: seq<T>): ConcurrentQueue<T>
    decreases |ps|
  {
    if |ps| == 0 then c else PushEach(c.Push(ps[0]), ps[1..])
  }

  /** Pushing through the wrapper is pushing on the underlying slice. */
  lemma {:induction false} PushEachDelegates<T>(c: ConcurrentQueue<T>, ps: seq<T>)
    ensures PushEach(c, ps).underlying == Queue.PushAll(c.underlying, ps)
    decreases |ps|
  {
    if |ps| > 0 {
      PushEachDelegates(c.Push(ps[0]), ps[1..]);
    }
  }
}
